=== FILE: README.md ===
# LNURL-pay links: repository and protocol handlers

A Dafny model of the core of the `lnurlp` extension: the pay-link
repository (`crud.py`) and the two LNURL-pay exchanges of LUD-06
"payRequest" (`lnurl.py`). A pay link is a stored record that maps a short
id, and optionally a human-readable username, to payment parameters:
amount bounds, an optional fiat currency, a description and a comment
policy. It also holds two serve counters, `served_meta` and `served_pr`.

- `options.dfy` (`Options`): `Option` and `Result`. A `Failure` stands for an exception the Python code raises.
- `models.dfy` (`Models`): the `PayLink` row and the `CreatePayLinkData` request.
  - `PayLinkUpdate` is the keyword arguments of an update, typed as one optional assignment per mutable column. It has no entry for the id or the two counters.
  - `CounterDeltas` is the keyword arguments of an increment: an optional delta for each of the two counters.
  - `Present` is Python truthiness of an optional string. It decides `if data.username`, `len(username or "") > 0` and `if link.currency`.
- `crud.py` becomes `crud.dfy` (`Crud`). The table is a `map<LinkId, PayLink>`, and every operation is a side-effect-free function or method. It maps the old store to the new one plus the value the Python function returns.
  - `Valid` is the invariant the operations keep: every row is filed under its id, and no two rows share a non-empty username.
  - `GetPayLinks` returns the rows in `ORDER BY id` order. `Collation` defines that order.
- `lnurl.py` becomes `lnurl.dfy` (`Lnurl`). Each handler returns the store after its counter update together with a `Response`:
  - a pay-request payload;
  - a protocol error payload (`{status: "ERROR", reason}`, carried as a `Reason`);
  - HTTP 404;
  - an invoice request carrying the amount in satoshis;
  - a server error, for an exception that escapes the handler.
- `numerics.dfy` (`Numerics`): Python's `round` (ties to even) and `int()` (truncation toward zero), taken over exact reals.

The collaborators the core calls become parameters:
- `check_lnaddress_format` is a predicate `formatOk`;
- `get_fiat_rate_satoshis` is a function `rateOf` from currency code to satoshis per unit;
- the random short id of a new link is the argument `linkId`, which must not be in the store.

In three places the code does something a reader may not expect, and the model follows the code:
- The callback increments `served_pr` before it validates anything, so every request for a known link is counted, refused ones included.
- The pay request by address applies no fiat rate and never advertises `commentAllowed`. It serves `int(bound * 1000)`. This is reported under Findings.
- A missing or empty `amount` is validated as 0 rather than refused.

## Model

| member | source | states |
|---|---|---|
| Crud.CheckAddressNotExists | crud.py:53-61 | Fails with "username in use" exactly when some stored link, of any wallet, holds that username; otherwise returns true |
| Crud.CheckAddress | crud.py:64-67 | Checks the format rule first and uniqueness second: it succeeds iff the format rule accepts the name and no row holds it, and it names the first failing check |
| Crud.CreatePayLink | crud.py:64-117 | Succeeds iff the username is absent or empty, or it passes the format rule and no row holds it, so an absent or empty username skips both checks. On success the new row copies every request field, has both counters at 0, and is stored under the new id. No other link changes, and a failure leaves the store unchanged |
| Crud.CreateThenGet | crud.py:113-117 | After a successful create, the read-back by id finds the new row, so the integrity assertion cannot fail. Every other id reads back as before |
| Crud.CreateThenDelete | crud.py:169-170 | Deleting a link just created gives back the original store |
| Crud.CreateThenFindByAddress | crud.py:120-124 | After creating a link with a non-empty username, that username is found, and the new link is the only row holding it |
| Crud.CreatePreservesValid | crud.py:64-67 | Create keeps every row under its own id and keeps non-empty usernames unique |
| Crud.GetPayLink | crud.py:127-129 | Returns the row iff the id is stored and `None` otherwise. In a valid store the row carries that id |
| Crud.GetAddressData | crud.py:120-124 | Returns `None` iff no row holds the username; otherwise returns a stored row holding it. For a non-empty username in a valid store, that row is the only one |
| Crud.UpdatePayLink | crud.py:147-157 | A non-empty username among the fields must pass the format rule and must not be held by any row, including the link being updated. Naming no field fails, because the SET list is empty. On success only the named columns of the target row change and every other link is untouched. An unknown id changes nothing and reads back `None` |
| Crud.UpdateRejectsOwnAddress | crud.py:148-150 | Re-assigning a link the non-empty username it already holds is rejected |
| Crud.UpdatePreservesValid | crud.py:147-150 | A successful update keeps non-empty usernames unique and rows under their ids |
| Models.ApplyUpdate | crud.py:152-154 | The written row has every named column replaced by its new value. Every other column is kept, and so are the id and both counters |
| Crud.IncrementPayLink | crud.py:160-166 | Each named counter gets its delta added, not assigned. Every other column and every other link stays the same. An unknown id changes nothing and reads back `None`, and naming no counter fails |
| Models.AddDeltas | crud.py:161-163 | Adds each named delta to its counter, treats an unnamed counter as delta 0, and changes no other column |
| Crud.IncrementComposes | crud.py:160-166 | For any two increments of the same link that each name at least one counter, including the single-counter increments the handlers make, doing both equals one increment by the counter-wise summed deltas. This holds for the store and the read-back row alike |
| Crud.IncrementTimesAccumulates | crud.py:160-166 | After n successive increments by the same deltas, each named counter has risen by n times its delta and nothing else has changed. So n requests counted with `served_meta=1` raise `served_meta` by exactly n |
| Crud.IncrementMonotone | crud.py:160-166 | With non-negative deltas no counter of any link decreases, the store keeps its ids, and no other column or link changes |
| Crud.IncrementPreservesValid | crud.py:160-166 | Increment keeps the store valid |
| Crud.DeletePayLink | crud.py:169-170 | Removes exactly the given id and keeps every other row. It is a no-op for an absent id |
| Crud.DeletePreservesValid | crud.py:169-170 | Delete keeps the store valid |
| Crud.InsertById | crud.py:139-140 | Inserting a row with a new id into an id-sorted sequence keeps it sorted, adds exactly that row, and drops nothing |
| Crud.GetPayLinks | crud.py:132-144 | Returns exactly the stored rows whose wallet is among the given ids, in strictly ascending id order. A single wallet id is treated as a one-element list |
| Crud.SortedByIdUnique | crud.py:139-140 | Two id-sorted sequences with the same rows are equal, so the listing's contract determines its result |
| Collation.LessTransitive | crud.py:140 | The order used for `ORDER BY id` is transitive |
| Collation.LessTotal | crud.py:140 | Any two distinct ids are ordered one way or the other |
| Collation.LessIrreflexive | crud.py:140 | No id precedes itself |
| Numerics.RoundHalfEven | lnurl.py:96-97 | Python `round`: the result is within 1/2 of its argument, and a tie goes to the even integer |
| Numerics.TruncToInt | lnurl.py:29-30 | Python `int()` on a float rounds toward zero. For a non-negative argument it gives the floor; for a negative argument it gives the ceiling |
| Numerics.TruncThousandth | lnurl.py:148 | `int(amount / 1000)` is `amount div 1000` for non-negative amounts, and its mirror image for negative ones |
| Lnurl.CallbackWindow | lnurl.py:119-127 | Without a currency the accepted window is exactly [min*1000, max*1000] msat. With a currency it is the exact conversion [1000*rate*min, 1000*rate*max] widened by 0.5% of the lower end below it and 1% of the upper end above it |
| Lnurl.Validate | lnurl.py:129-148 | An invoice is requested iff the amount (missing counts as 0) lies in the window and the comment (missing counts as empty) fits. The first failing check decides the reason: below the minimum, then above the maximum, then comment too long. A comment-length failure with no comment at all is a server error, because `len(None)` raises. An accepted request bills the link's wallet the truncated amount/1000 sats, with its description as memo |
| Lnurl.ApiLnurlCallback | lnurl.py:113-148 | An unknown id gives 404 and changes nothing. For a known id, `served_pr` goes up by exactly 1 whatever the outcome, nothing else in the store changes, and the response is the validation verdict for that link |
| Lnurl.CallbackWithoutCurrency | lnurl.py:125-144 | Without a currency an invoice is requested iff min*1000 <= amount <= max*1000 and the comment length is at most `comment_chars` |
| Lnurl.CurrencyWindowContainsExact | lnurl.py:121-124 | For a non-negative rate and bounds, the window [rate*995*min, rate*1010*max] contains the exact conversion [rate*1000*min, rate*1000*max] |
| Lnurl.MissingAmountIsZero | lnurl.py:129 | A callback without an amount behaves like one with amount 0: the same store, the same verdict, and the same satoshis |
| Lnurl.MissingCommentIsEmpty | lnurl.py:140-144 | When `comment_chars` is not negative, a callback without a comment gets the same verdict as one with an empty comment |
| Lnurl.PayRequestPayload | lnurl.py:92-105 | The callback is the link's own id. Each bound is a whole number of satoshis, in msat, within 500 msat of bound*rate*1000. At an exact half-satoshi tie it is the even number of satoshis, as Python's `round` gives. `commentAllowed` is present iff `comment_chars > 0`, and then equals it |
| Lnurl.ApiLnurlResponse | lnurl.py:85-105 | An unknown id gives 404 and changes nothing. For a known id, `served_meta` goes up by exactly 1, nothing else changes, and the pay-request payload is built at the link's rate |
| Lnurl.PayRequestWithoutCurrency | lnurl.py:96-97 | Without a currency and with whole-satoshi bounds, the pay request advertises bound*1000 msat, exactly the callback's window |
| Lnurl.PayRequestWithinCallbackWindow | lnurl.py:92-124 | With a currency, once min*rate >= 100 and max*rate >= 50 sats, the advertised bounds lie inside the callback's window at the same rate |
| Lnurl.AddressPayloadAsWritten | lnurl.py:23-31 | The address payload points its callback at the link's id and never has `commentAllowed`. Each bound is bound*1000 msat truncated toward zero, for either sign and whatever the currency |
| Lnurl.LnurlResponseAsWritten | lnurl.py:17-34 | An unknown username gives the "Address not found." error payload instead of failing. Otherwise the payload is built for a link holding that username, and no counter changes |
| Lnurl.AddressPayloadRejectedByCallback | lnurl.py:29-30 | A USD link with bounds 1..5 at 50000 sat/USD is advertised on the address path as 1000..5000 msat, and the callback refuses even 5000 as below its minimum of 49750000 |
| Lnurl.LnurlResponse | lnurl.py:17-34 | Corrected address path: it answers unknown usernames the same way and changes no counter, but serves the same payload as the by-id path at the link's rate |
| Lnurl.HandlersPreserveValid | lnurl.py:85-118 | Both id-addressed handlers only move counters, so they keep the store valid |

The rounding threshold in `Lnurl.PayRequestWithinCallbackWindow` is needed. Rounding to whole satoshis moves a bound by up to 500 msat. That is more than the 0.5% tolerance below 100 sats, and more than the 1% tolerance above, below 50 sats.

## Findings

| source | as written | input that shows it | evidently intended | confidence | as-written member | corrected member |
|---|---|---|---|---|---|---|
| lnurl.py:29-30 | The pay request by address advertises `int(min*1000)`..`int(max*1000)` msat with no fiat conversion, even for a link priced in a currency | A link with currency USD, min 1, max 5, at 50000 sat/USD, is advertised as 1000..5000 msat. The callback refuses 5000 msat as smaller than its minimum of 49750000 | The same payload as the by-id path: `round(bound*rate)*1000`, plus `commentAllowed` | medium; not executed; lines 29-30 are reached only if the call form of `lnurlpay_metadata` at line 28 does not raise, and the refusal assumes the second callback (lines 113-167) is the one dispatched | Lnurl.AddressPayloadRejectedByCallback | Lnurl.LnurlResponse |

`Lnurl.LnurlResponseAsWritten` and `Lnurl.AddressPayloadAsWritten` model the address path as written. The corrected `Lnurl.LnurlResponse` serves `Lnurl.PayRequestPayload`. `Lnurl.PayRequestWithinCallbackWindow` proves that the corrected payload's bounds are accepted by the callback.

## Left out

- The settings functions (crud.py:13-50) are file I/O and private-key generation, outside this core.
- SQL text building and the database layer are replaced by map operations. An id collision on insert, which the source does not guard against, is excluded by the requirement that the new id be fresh.
- `check_lnaddress_format`, `get_fiat_rate_satoshis`, `create_invoice` and `success_action` are external. The first two are parameters.
  - The callback stops at the invoice request. The returned `pr`, `routes` and `successAction` fields are not modelled.
  - An exception raised by any of these collaborators is not modelled.
- The LNURL metadata string (`lnurlpay_metadata`) is not modelled, because models.py is not part of this model. The pay-request payload has no metadata field.
- `lnurlpay_metadata` is used in two incompatible forms. lnurl.py:28 and lnurl.py:51 await it as a method taking `domain`. lnurl.py:98 and lnurl.py:150 use it as an attribute. Whatever models.py defines, one of the two forms raises. The model assumes every use succeeds, so the address path, the by-id pay request and the accepted callback all reach their responses. Depending on that definition, either the address path or the other two would end in a server error instead.
- Lnurl.PayRequestPayload: the by-id payload is built by the `lnurl` library's `LnurlPayResponse` constructor (lnurl.py:94-99). That library is not part of this model. Its own field validation is assumed to pass. In the versions of the library we know, it requires positive bounds and `maxSendable >= minSendable`, and a failure would be a server error. Where `min*rate` rounds to 0 sats or `max < min`, the model still returns the payload.
- Every read-back goes through `PayLink.from_row` (crud.py:124, 129, 144, 157, 166), defined in models.py, which is not part of this model. It is assumed to return the stored row unchanged. In particular, `fiat_base_multiplier` is stored and copied, but it plays no part in any bound. If `from_row` rescales `min`/`max` by it for currency links, the returned bounds differ from the stored ones.
- Models.ApplyUpdate: `update_pay_link` accepts any column name as a keyword (crud.py:152). The typed `PayLinkUpdate` covers only the mutable columns. Updates that would rewrite the id or a counter are not modelled, and the id and counter preservation stated by this member and by `Crud.UpdatePreservesValid` relies on that restriction.
- Crud.IncrementPayLink: `increment_pay_link` adds to any named column (crud.py:161). `CounterDeltas` covers only `served_meta` and `served_pr`, the only columns the handlers increment.
- Lnurl.Validate: the invoice request's `parsedAmount` is the parsed amount parameter. The source forwards the raw query text (lnurl.py:155), so `?amount=` gives `""` rather than `None`, and `0100` gives `"0100"` rather than 100.
- The callback URL is represented by the link id. `url_for`, `urlparse` and the domain are not modelled.
- Floating point is replaced by exact reals: bounds, rate, products and `amount / 1000` are exact. Float rounding errors and precision loss above 2^53 are not modelled.
- Error reasons carry their numbers rather than the formatted message text, because Python's float-to-text formatting is not modelled.
- An `amount` query parameter that is not an integer, which makes `int()` raise, is not modelled. The amount is an optional integer, and an empty parameter is `None`.
- A second handler is registered on the same callback path (lnurl.py:108-113) as the first `api_lnurl_callback` (lnurl.py:38-73). Python rebinds only the name, so both registrations remain. Which one the router dispatches is not modelled. Only the second, validating handler is modelled. A router that takes the first match would serve the first handler, which checks no bounds.
- Atomicity of `increment` under concurrent requests is not modelled. Each operation is one atomic step on the store.
- Crud.CreatePreservesValid: the uniqueness check (crud.py:66-67) and the insert (crud.py:71) are separate awaits. So the lemma, like `Crud.UpdatePreservesValid` (check at crud.py:149-150, write at crud.py:153) and the "only row" clause of `Crud.GetAddressData`, holds only when requests run one at a time. Two concurrent creates or updates with the same username can both pass the check.
- Logging (lnurl.py:33) is not modelled.
- Field validation of `CreatePayLinkData` (models.py, for example `min <= max` and the range of `comment_chars`) is not part of this model. Any values are accepted.
- Crud.GetPayLinks: orders ids by code point, as SQLite's binary collation does. PostgreSQL's locale collation is not modelled. An empty wallet list yields an empty result, although `IN ()` is rejected by some SQL engines.
- Crud.GetAddressData: when several rows share the empty username, it does not say which row `fetchone` returns.
- Lnurl.PayRequestWithoutCurrency: it states bound*1000 only for whole-satoshi bounds. Otherwise `round` moves a fractional bound to a whole satoshi.
- Lnurl.CurrencyWindowContainsExact: it assumes non-negative bounds, since for a negative bound the widened window is narrower than the exact one.

=== FILE: collation.dfy ===
/** The order in which the store returns rows for `ORDER BY id`: the binary
    collation, i.e. lexicographic order on code points. */
module Collation {

  /** Strict lexicographic order: a proper prefix precedes its extensions. */
  predicate Less(a: string, b: string)
    decreases |a|
  {
    if |a| == 0 then |b| > 0
    else |b| > 0 && (a[0] < b[0] || (a[0] == b[0] && Less(a[1..], b[1..])))
  }

  lemma {:induction false} LessIrreflexive(a: string)
    ensures !Less(a, a)
    decreases |a|
  {
    if |a| > 0 {
      LessIrreflexive(a[1..]);
    }
  }

  lemma {:induction false} LessTransitive(a: string, b: string, c: string)
    requires Less(a, b) && Less(b, c)
    ensures Less(a, c)
    decreases |a|
  {
    if |a| > 0 && a[0] == b[0] && b[0] == c[0] {
      LessTransitive(a[1..], b[1..], c[1..]);
    }
  }

  /** Any two distinct strings are ordered one way or the other. */
  lemma {:induction false} LessTotal(a: string, b: string)
    requires a != b
    ensures Less(a, b) || Less(b, a)
    decreases |a|
  {
    if |a| > 0 && |b| > 0 && a[0] == b[0] {
      assert a == [a[0]] + a[1..] && b == [b[0]] + b[1..];
      LessTotal(a[1..], b[1..]);
    }
  }

  lemma LessAsymmetric(a: string, b: string)
    requires Less(a, b)
    ensures !Less(b, a)
  {
  }
}

=== FILE: crud.dfy ===
/** The pay-link repository as pure operations on a map from link id to
    row. Each operation returns the new store together with what the
    Python function returns. */
module Crud {
  import opened Options
  import opened Models
  import opened Collation

  type Store = map<LinkId, PayLink>

  datatype CrudError =
    | InvalidAddress(username: string)   // check_lnaddress_format raised
    | AddressInUse(username: string)     // "Username already exists. Try a different one."
    | EmptyAssignment                    // no column named: the UPDATE has an empty SET list

  /** A successful create: the new store and the freshly read row. */
  datatype Created = Created(store: Store, link: PayLink)

  /** An update or increment: the new store and the row read back by id. */
  datatype Written = Written(store: Store, link: Option<PayLink>)

  /** Every row is filed under its own id. */
  predicate WellFormed(store: Store) {
    forall id :: id in store ==> store[id].id == id
  }

  /** No two rows share a non-empty username. */
  predicate UniqueAddresses(store: Store) {
    forall a, b ::
      a in store && b in store && a != b && Present(store[a].username)
      ==> store[a].username != store[b].username
  }

  predicate Valid(store: Store) {
    WellFormed(store) && UniqueAddresses(store)
  }

  /** Some row, whichever its wallet, holds `username`. */
  predicate AddressTaken(store: Store, username: string) {
    exists id :: id in store && store[id].username == Some(username)
  }

  /** Raises when any row already holds `username`, otherwise returns true. */
  function CheckAddressNotExists(store: Store, username: string): (r: Result<bool, CrudError>)
    ensures r.Success? ==> r.value && forall id :: id in store ==> store[id].username != Some(username)
    ensures r.Failure? ==> r.error == AddressInUse(username) && exists id :: id in store && store[id].username == Some(username)
  {
    if AddressTaken(store, username) then Failure(AddressInUse(username)) else Success(true)
  }

  /** The checks create and update run on a username they are given: first
      the format rule, then uniqueness against every row. */
  function CheckAddress(store: Store, username: string, formatOk: string -> bool): (r: Result<bool, CrudError>)
    ensures r.Success? <==> formatOk(username) && !AddressTaken(store, username)
    ensures !formatOk(username) ==> r == Failure(InvalidAddress(username))
    ensures formatOk(username) && AddressTaken(store, username) ==> r == Failure(AddressInUse(username))
  {
    if !formatOk(username) then Failure(InvalidAddress(username))
    else CheckAddressNotExists(store, username)
  }

  /** Inserts a new link under the caller-chosen fresh id `linkId` (the
      source draws it at random and does not check for a collision). */
  function CreatePayLink(store: Store, data: CreatePayLinkData, wallet: WalletId,
                         linkId: LinkId, formatOk: string -> bool): (r: Result<Created, CrudError>)
    requires linkId !in store
    ensures r.Success? <==>
      !Present(data.username)
      || (formatOk(data.username.value) && !AddressTaken(store, data.username.value))
    ensures Present(data.username) && !formatOk(data.username.value)
      ==> r == Failure(InvalidAddress(data.username.value))
    ensures Present(data.username) && formatOk(data.username.value) && AddressTaken(store, data.username.value)
      ==> r == Failure(AddressInUse(data.username.value))
    ensures r.Success? ==>
      && BuiltFrom(r.value.link, linkId, wallet, data)
      && r.value.store.Keys == store.Keys + {linkId}
      && r.value.store[linkId] == r.value.link
      && forall id :: id in store ==> r.value.store[id] == store[id]
  {
    var checked := if Present(data.username) then CheckAddress(store, data.username.value, formatOk)
                   else Success(true);
    if checked.Failure? then Failure(checked.error)
    else
      var link := PayLink(linkId, wallet, data.description, data.min, data.max, 0, 0,
                          data.webhookUrl, data.webhookHeaders, data.webhookBody,
                          data.successText, data.successUrl, data.commentChars,
                          data.currency, data.fiatBaseMultiplier, data.username, data.zaps);
      Success(Created(store[linkId := link], link))
  }

  /** Point lookup by id; absence is `None`, not an error. */
  function GetPayLink(store: Store, linkId: LinkId): (r: Option<PayLink>)
    ensures r.Some? <==> linkId in store
    ensures r.Some? ==> r.value == store[linkId]
    ensures WellFormed(store) && r.Some? ==> r.value.id == linkId
  {
    if linkId in store then Some(store[linkId]) else None
  }

  /** Point lookup by username. `fetchone` returns some matching row; which
      one is unspecified, so the choice is left open here. */
  method GetAddressData(store: Store, username: string) returns (r: Option<PayLink>)
    ensures r.None? <==> !AddressTaken(store, username)
    ensures r.Some? ==> r.value.username == Some(username) && exists id :: id in store && store[id] == r.value
    ensures r.Some? && Valid(store) && username != ""
      ==> forall id :: id in store && store[id].username == Some(username) ==> store[id] == r.value
  {
    if AddressTaken(store, username) {
      var id :| id in store && store[id].username == Some(username);
      r := Some(store[id]);
    } else {
      r := None;
    }
  }

  /** Partial update of the named columns of `linkId`. A non-empty username
      among them is checked like on create, against every row including
      the one being updated. An unknown id updates nothing and reads back
      `None`. */
  function UpdatePayLink(store: Store, linkId: LinkId, u: PayLinkUpdate,
                         formatOk: string -> bool): (r: Result<Written, CrudError>)
    ensures u.username.Assign? && Present(u.username.value) && !formatOk(u.username.value.value)
      ==> r == Failure(InvalidAddress(u.username.value.value))
    ensures u.username.Assign? && Present(u.username.value) && formatOk(u.username.value.value)
            && AddressTaken(store, u.username.value.value)
      ==> r == Failure(AddressInUse(u.username.value.value))
    ensures u.NamesNothing() ==> r == Failure(EmptyAssignment)
    ensures r.Success? <==>
      && !u.NamesNothing()
      && (u.username.Assign? && Present(u.username.value)
          ==> formatOk(u.username.value.value) && !AddressTaken(store, u.username.value.value))
    ensures r.Success? && linkId !in store ==> r.value == Written(store, None)
    ensures r.Success? && linkId in store ==>
      && r.value.link.Some?
      && UpdatedFrom(store[linkId], u, r.value.link.value)
      && r.value.store == store[linkId := r.value.link.value]
  {
    var checked := if u.username.Assign? && Present(u.username.value)
                   then CheckAddress(store, u.username.value.value, formatOk)
                   else Success(true);
    if checked.Failure? then Failure(checked.error)
    else if u.NamesNothing() then Failure(EmptyAssignment)
    else if linkId in store then
      var link := ApplyUpdate(store[linkId], u);
      Success(Written(store[linkId := link], Some(link)))
    else Success(Written(store, None))
  }

  /** Adds each named delta to its counter (`col = col + delta`); an unknown
      id changes nothing and reads back `None`. */
  function IncrementPayLink(store: Store, linkId: LinkId, d: CounterDeltas): (r: Result<Written, CrudError>)
    ensures r.Failure? <==> d.servedMeta.None? && d.servedPr.None?
    ensures r.Failure? ==> r.error == EmptyAssignment
    ensures r.Success? && linkId !in store ==> r.value == Written(store, None)
    ensures r.Success? && linkId in store ==>
      && r.value.link.Some?
      && r.value.link.value.servedMeta == store[linkId].servedMeta + d.servedMeta.GetOr(0)
      && r.value.link.value.servedPr == store[linkId].servedPr + d.servedPr.GetOr(0)
      && r.value.link.value.(servedMeta := store[linkId].servedMeta,
                             servedPr := store[linkId].servedPr) == store[linkId]
      && r.value.store == store[linkId := r.value.link.value]
  {
    if d.servedMeta.None? && d.servedPr.None? then Failure(EmptyAssignment)
    else if linkId in store then
      var link := AddDeltas(store[linkId], d);
      Success(Written(store[linkId := link], Some(link)))
    else Success(Written(store, None))
  }

  /** Removes `linkId`; a no-op when absent. */
  function DeletePayLink(store: Store, linkId: LinkId): (r: Store)
    ensures r.Keys == store.Keys - {linkId}
    ensures forall id :: id in r ==> r[id] == store[id]
  {
    store - {linkId}
  }

  // ---------------------------------------------------------------------
  // Listing by wallet, ordered by id

  /** One wallet id or a list of them; a single id means a one-element list. */
  datatype WalletIds = OneWallet(wallet: WalletId) | Wallets(wallets: seq<WalletId>) {
    function AsList(): (r: seq<WalletId>)
      ensures OneWallet? ==> r == [wallet]
      ensures Wallets? ==> r == wallets
    {
      if OneWallet? then [wallet] else wallets
    }
  }

  /** Ids strictly increase along the sequence (so they are distinct). */
  predicate SortedById(xs: seq<PayLink>) {
    forall i, j :: 0 <= i < j < |xs| ==> Less(xs[i].id, xs[j].id)
  }

  /** Inserts `l` into a sequence sorted by id that does not yet hold its id. */
  function InsertById(xs: seq<PayLink>, l: PayLink): (r: seq<PayLink>)
    requires SortedById(xs)
    requires forall i :: 0 <= i < |xs| ==> xs[i].id != l.id
    ensures SortedById(r)
    ensures |r| == |xs| + 1
    ensures forall x :: x in r <==> x in xs || x == l
    decreases |xs|
  {
    if |xs| == 0 then [l]
    else if Less(l.id, xs[0].id) then
      forall j | 0 <= j < |xs| ensures Less(l.id, xs[j].id) {
        if j > 0 { LessTransitive(l.id, xs[0].id, xs[j].id); }
      }
      [l] + xs
    else
      LessTotal(l.id, xs[0].id);
      var rest := InsertById(xs[1..], l);
      assert forall x :: x in rest ==> Less(xs[0].id, x.id) by {
        forall x | x in rest ensures Less(xs[0].id, x.id) {
          if x != l {
            var k :| 1 <= k < |xs| && xs[k] == x;
          }
        }
      }
      [xs[0]] + rest
  }

  /** Every row whose wallet is among `wallets`, in ascending id order. */
  method GetPayLinks(store: Store, wallets: WalletIds) returns (r: seq<PayLink>)
    requires WellFormed(store)
    ensures SortedById(r)
    ensures forall l :: l in r <==> l.id in store && store[l.id] == l && l.wallet in wallets.AsList()
  {
    var ws := wallets.AsList();
    var selected := set id | id in store && store[id].wallet in ws;
    var remaining := selected;
    r := [];
    while remaining != {}
      invariant remaining <= selected
      invariant SortedById(r)
      invariant forall l :: l in r <==> l.id in selected - remaining && store[l.id] == l
      decreases remaining
    {
      var id :| id in remaining;
      r := InsertById(r, store[id]);
      remaining := remaining - {id};
    }
  }

  /** Two id-sorted sequences with the same elements are the same sequence,
      so the contract of `GetPayLinks` fixes its result. */
  lemma {:induction false} SortedByIdUnique(xs: seq<PayLink>, ys: seq<PayLink>)
    requires SortedById(xs) && SortedById(ys)
    requires forall l :: l in xs <==> l in ys
    ensures xs == ys
    decreases |xs|
  {
    assert |ys| > 0 ==> ys[0] in xs;
    if |xs| > 0 {
      assert xs[0] in ys;
      assert ys[0] in xs;
      var j :| 0 <= j < |ys| && ys[j] == xs[0];
      var i :| 0 <= i < |xs| && xs[i] == ys[0];
      if j > 0 {
        if i > 0 {
          LessAsymmetric(xs[0].id, xs[i].id);
        } else {
          LessIrreflexive(xs[0].id);
        }
        assert false;
      }
      forall l ensures l in xs[1..] <==> l in ys[1..] {
        if l in xs[1..] {
          var k :| 1 <= k < |xs| && xs[k] == l;
          LessIrreflexive(l.id);
          assert l != ys[0];
          assert l in ys;
        }
        if l in ys[1..] {
          var k :| 1 <= k < |ys| && ys[k] == l;
          LessIrreflexive(l.id);
          assert l != xs[0];
          assert l in xs;
        }
      }
      SortedByIdUnique(xs[1..], ys[1..]);
      assert xs == [xs[0]] + xs[1..];
      assert ys == [ys[0]] + ys[1..];
    }
  }

  // ---------------------------------------------------------------------
  // Properties relating several calls

  /** The read-back after the insert always finds the new row, equal to the
      request plus zero counters, so the source's integrity assertion
      cannot fail. */
  lemma CreateThenGet(store: Store, data: CreatePayLinkData, wallet: WalletId,
                      linkId: LinkId, formatOk: string -> bool)
    requires linkId !in store
    requires CreatePayLink(store, data, wallet, linkId, formatOk).Success?
    ensures var c := CreatePayLink(store, data, wallet, linkId, formatOk).value;
      && GetPayLink(c.store, linkId) == Some(c.link)
      && BuiltFrom(c.link, linkId, wallet, data)
      && (forall id :: id != linkId ==> GetPayLink(c.store, id) == GetPayLink(store, id))
  {
  }

  /** Deleting a link just created restores the store. */
  lemma CreateThenDelete(store: Store, data: CreatePayLinkData, wallet: WalletId,
                         linkId: LinkId, formatOk: string -> bool)
    requires linkId !in store
    requires CreatePayLink(store, data, wallet, linkId, formatOk).Success?
    ensures DeletePayLink(CreatePayLink(store, data, wallet, linkId, formatOk).value.store, linkId) == store
  {
  }

  /** A created link holding a non-empty username can afterwards be found by
      that username, and only that link holds it. */
  lemma CreateThenFindByAddress(store: Store, data: CreatePayLinkData, wallet: WalletId,
                                linkId: LinkId, formatOk: string -> bool)
    requires linkId !in store
    requires Present(data.username)
    requires CreatePayLink(store, data, wallet, linkId, formatOk).Success?
    ensures var c := CreatePayLink(store, data, wallet, linkId, formatOk).value;
      && AddressTaken(c.store, data.username.value)
      && forall id :: id in c.store && c.store[id].username == data.username ==> id == linkId
  {
  }

  lemma CreatePreservesValid(store: Store, data: CreatePayLinkData, wallet: WalletId,
                             linkId: LinkId, formatOk: string -> bool)
    requires Valid(store) && linkId !in store
    requires CreatePayLink(store, data, wallet, linkId, formatOk).Success?
    ensures Valid(CreatePayLink(store, data, wallet, linkId, formatOk).value.store)
  {
  }

  /** A non-empty username the target link already holds is rejected: the
      uniqueness check does not exclude the link being updated. */
  lemma UpdateRejectsOwnAddress(store: Store, linkId: LinkId, username: string,
                                formatOk: string -> bool)
    requires linkId in store && store[linkId].username == Some(username)
    requires username != ""
    ensures UpdatePayLink(store, linkId, UsernameUpdate(Some(username)), formatOk).Failure?
  {
  }

  lemma UpdatePreservesValid(store: Store, linkId: LinkId, u: PayLinkUpdate, formatOk: string -> bool)
    requires Valid(store)
    requires UpdatePayLink(store, linkId, u, formatOk).Success?
    ensures Valid(UpdatePayLink(store, linkId, u, formatOk).value.store)
  {
  }

  /** Two increments of one link add up: deltas accumulate rather than
      overwrite. */
  lemma IncrementComposes(store: Store, linkId: LinkId, d1: CounterDeltas, d2: CounterDeltas)
    requires d1.servedMeta.Some? || d1.servedPr.Some?
    requires d2.servedMeta.Some? || d2.servedPr.Some?
    ensures IncrementPayLink(IncrementPayLink(store, linkId, d1).value.store, linkId, d2)
         == IncrementPayLink(store, linkId, SumDeltas(d1, d2))
  {
    if linkId in store {
      var twice := AddDeltas(AddDeltas(store[linkId], d1), d2);
      assert twice == AddDeltas(store[linkId], SumDeltas(d1, d2));
      assert store[linkId := AddDeltas(store[linkId], d1)][linkId := twice] == store[linkId := twice];
    }
  }

  /** The store after `n` successive increments of `linkId` by `d`. */
  function IncrementTimes(store: Store, linkId: LinkId, d: CounterDeltas, n: nat): Store
    requires d.servedMeta.Some? || d.servedPr.Some?
    decreases n
  {
    if n == 0 then store
    else IncrementPayLink(IncrementTimes(store, linkId, d, n - 1), linkId, d).value.store
  }

  /** `n` successive increments by `d` raise each named counter by `n` times
      its delta and change nothing else; in particular `n` requests counted
      with `served_meta=1` leave `served_meta` higher by exactly `n`. */
  lemma {:induction false} IncrementTimesAccumulates(store: Store, linkId: LinkId, d: CounterDeltas, n: nat)
    requires d.servedMeta.Some? || d.servedPr.Some?
    ensures var s' := IncrementTimes(store, linkId, d, n);
      && s'.Keys == store.Keys
      && (linkId in store ==>
            s'[linkId] == store[linkId].(servedMeta := store[linkId].servedMeta + n * d.servedMeta.GetOr(0),
                                         servedPr := store[linkId].servedPr + n * d.servedPr.GetOr(0)))
      && forall id :: id in store && id != linkId ==> s'[id] == store[id]
    decreases n
  {
    if n > 0 {
      IncrementTimesAccumulates(store, linkId, d, n - 1);
      assert n * d.servedMeta.GetOr(0) == (n - 1) * d.servedMeta.GetOr(0) + d.servedMeta.GetOr(0);
      assert n * d.servedPr.GetOr(0) == (n - 1) * d.servedPr.GetOr(0) + d.servedPr.GetOr(0);
    }
  }

  /** With non-negative deltas no counter of any link decreases, and every
      other column and every other link stays as it was. */
  lemma IncrementMonotone(store: Store, linkId: LinkId, d: CounterDeltas)
    requires d.servedMeta.GetOr(0) >= 0 && d.servedPr.GetOr(0) >= 0
    requires IncrementPayLink(store, linkId, d).Success?
    ensures var s' := IncrementPayLink(store, linkId, d).value.store;
      && s'.Keys == store.Keys
      && forall id :: id in store ==>
           && s'[id].servedMeta >= store[id].servedMeta
           && s'[id].servedPr >= store[id].servedPr
           && s'[id].(servedMeta := store[id].servedMeta, servedPr := store[id].servedPr) == store[id]
           && (id != linkId ==> s'[id] == store[id])
  {
  }

  lemma IncrementPreservesValid(store: Store, linkId: LinkId, d: CounterDeltas)
    requires Valid(store)
    requires IncrementPayLink(store, linkId, d).Success?
    ensures Valid(IncrementPayLink(store, linkId, d).value.store)
  {
  }

  lemma DeletePreservesValid(store: Store, linkId: LinkId)
    requires Valid(store)
    ensures Valid(DeletePayLink(store, linkId))
  {
  }
}

=== FILE: lnurl.dfy ===
/** The LNURL-pay handlers (LUD-06 "payRequest"): the pay request served by
    link id or by address, and the callback that validates the amount and
    comment before an invoice is requested. Each handler returns the store
    after its counter update together with the response. */
module Lnurl {
  import opened Options
  import opened Models
  import opened Crud
  import opened Numerics

  /** Why a request is refused on the protocol's error channel
      (`{status: "ERROR", reason}` with HTTP success status). */
  datatype Reason =
    | AddressNotFound
    | AmountTooSmall(amount: int, minimum: real)
    | AmountTooLarge(amount: int, maximum: real)
    | CommentTooLong(length: nat, allowed: int)

  /** The arguments handed to the external invoice service. */
  datatype InvoiceRequest = InvoiceRequest(
    wallet: WalletId,
    sats: int,
    memo: string,
    link: LinkId,
    comment: Option<string>,
    parsedAmount: Option<int>)  // the amount parameter as parsed; the source forwards its raw text

  datatype Response =
    | PayRequest(callback: LinkId, minSendable: int, maxSendable: int, commentAllowed: Option<int>)
    | LnurlError(reason: Reason)
    | NotFound                          // HTTP 404 "Pay link does not exist."
    | InvoiceRequested(invoice: InvoiceRequest)
    | ServerError                       // an exception escapes the handler

  datatype Handled = Handled(store: Store, response: Response)

  /** Amount window of the callback, in millisatoshis. */
  datatype Window = Window(low: real, high: real)

  /** Satoshis per unit of the link's currency; 1 when it has none. */
  function Rate(link: PayLink, rateOf: string -> real): real {
    if HasCurrency(link) then rateOf(link.currency.value) else 1.0
  }

  /** The amounts the callback accepts. With a currency the window is
      widened to absorb rate drift between the two requests: 0.5% below,
      1% above. */
  function CallbackWindow(link: PayLink, rate: real): (w: Window)
    ensures !HasCurrency(link) ==> w.low == 1000.0 * link.min && w.high == 1000.0 * link.max
    ensures HasCurrency(link) ==>
      var exactLow := 1000.0 * (rate * link.min);
      var exactHigh := 1000.0 * (rate * link.max);
      w.low == exactLow - exactLow / 200.0 && w.high == exactHigh + exactHigh / 100.0
  {
    if HasCurrency(link) then Window(rate * 995.0 * link.min, rate * 1010.0 * link.max)
    else Window(link.min * 1000.0, link.max * 1000.0)
  }

  /** Declarative acceptance rule of the callback: amount inside the window
      and comment no longer than allowed. */
  predicate Accepts(w: Window, amount: int, commentLength: nat, allowed: int) {
    w.low <= amount as real <= w.high && commentLength <= allowed
  }

  /** The callback's validation chain for a found link: lower bound, then
      upper bound, then comment length. A missing amount counts as 0 and a
      missing comment as empty. */
  function Validate(link: PayLink, w: Window, amount: Option<int>, comment: Option<string>): (r: Response)
    ensures var a := amount.GetOr(0); var n := |comment.GetOr("")|;
      && (r.InvoiceRequested? <==> Accepts(w, a, n, link.commentChars))
      && (a as real < w.low ==> r == LnurlError(AmountTooSmall(a, w.low)))
      && (w.low <= a as real && a as real > w.high ==> r == LnurlError(AmountTooLarge(a, w.high)))
      && (w.low <= a as real <= w.high && n > link.commentChars && comment.Some?
          ==> r == LnurlError(CommentTooLong(n, link.commentChars)))
      && (w.low <= a as real <= w.high && n > link.commentChars && comment.None? ==> r == ServerError)
      && (r.InvoiceRequested? ==>
            && r.invoice.wallet == link.wallet
            && r.invoice.memo == link.description
            && r.invoice.link == link.id
            && r.invoice.comment == comment
            && r.invoice.parsedAmount == amount
            && r.invoice.sats == (if a >= 0 then a / 1000 else -((-a) / 1000)))
  {
    var a := amount.GetOr(0);
    if (a as real) < w.low then LnurlError(AmountTooSmall(a, w.low))
    else if (a as real) > w.high then LnurlError(AmountTooLarge(a, w.high))
    else if |comment.GetOr("")| > link.commentChars then
      // the error message takes len(comment), which raises for a missing comment
      if comment.Some? then LnurlError(CommentTooLong(|comment.value|, link.commentChars))
      else ServerError
    else
      var sats := TruncToInt(a as real / 1000.0);
      TruncThousandth(a);
      InvoiceRequested(InvoiceRequest(link.wallet, sats, link.description, link.id, comment, amount))
  }

  /** The callback: counts the request on `served_pr` first, then answers
      404 for an unknown link or runs the validation chain. */
  function ApiLnurlCallback(store: Store, linkId: LinkId, amount: Option<int>, comment: Option<string>,
                            rateOf: string -> real): (h: Handled)
    ensures linkId !in store ==> h == Handled(store, NotFound)
    ensures linkId in store ==>
      && h.store == store[linkId := store[linkId].(servedPr := store[linkId].servedPr + 1)]
      && h.response == Validate(h.store[linkId], CallbackWindow(h.store[linkId], Rate(h.store[linkId], rateOf)),
                                amount, comment)
  {
    var w := IncrementPayLink(store, linkId, CounterDeltas(None, Some(1))).value;
    if w.link.None? then Handled(w.store, NotFound)
    else
      var link := w.link.value;
      Handled(w.store, Validate(link, CallbackWindow(link, Rate(link, rateOf)), amount, comment))
  }

  /** The pay-request payload for a link at a given rate: bounds converted
      to satoshis, rounded, and scaled to millisatoshis; `commentAllowed`
      only when comments are enabled. */
  function PayRequestPayload(link: PayLink, rate: real): (r: Response)
    ensures r.PayRequest? && r.callback == link.id
    ensures r.minSendable % 1000 == 0 && r.maxSendable % 1000 == 0
    ensures -500.0 <= r.minSendable as real - 1000.0 * (link.min * rate) <= 500.0
    ensures -500.0 <= r.maxSendable as real - 1000.0 * (link.max * rate) <= 500.0
    ensures (r.minSendable as real - 1000.0 * (link.min * rate) == 500.0
             || r.minSendable as real - 1000.0 * (link.min * rate) == -500.0)
      ==> (r.minSendable / 1000) % 2 == 0
    ensures (r.maxSendable as real - 1000.0 * (link.max * rate) == 500.0
             || r.maxSendable as real - 1000.0 * (link.max * rate) == -500.0)
      ==> (r.maxSendable / 1000) % 2 == 0
    ensures r.commentAllowed.Some? <==> link.commentChars > 0
    ensures r.commentAllowed.Some? ==> r.commentAllowed.value == link.commentChars
  {
    PayRequest(link.id,
               RoundHalfEven(link.min * rate) * 1000,
               RoundHalfEven(link.max * rate) * 1000,
               if link.commentChars > 0 then Some(link.commentChars) else None)
  }

  /** The pay request by link id: counts it on `served_meta`, then answers
      404 for an unknown link or serves the payload. */
  function ApiLnurlResponse(store: Store, linkId: LinkId, rateOf: string -> real): (h: Handled)
    ensures linkId !in store ==> h == Handled(store, NotFound)
    ensures linkId in store ==>
      && h.store == store[linkId := store[linkId].(servedMeta := store[linkId].servedMeta + 1)]
      && h.response == PayRequestPayload(h.store[linkId], Rate(h.store[linkId], rateOf))
  {
    var w := IncrementPayLink(store, linkId, CounterDeltas(Some(1), None)).value;
    if w.link.None? then Handled(w.store, NotFound)
    else
      var link := w.link.value;
      Handled(w.store, PayRequestPayload(link, Rate(link, rateOf)))
  }

  /** The pay-request payload the address path builds, as written: the
      bounds times 1000, truncated, whatever the currency, and no
      `commentAllowed`. */
  function AddressPayloadAsWritten(link: PayLink): (r: Response)
    ensures r.PayRequest? && r.callback == link.id && r.commentAllowed.None?
    ensures link.min >= 0.0 ==> 0 <= r.minSendable && r.minSendable as real <= 1000.0 * link.min < r.minSendable as real + 1.0
    ensures link.max >= 0.0 ==> 0 <= r.maxSendable && r.maxSendable as real <= 1000.0 * link.max < r.maxSendable as real + 1.0
    ensures link.min < 0.0 ==> r.minSendable <= 0 && r.minSendable as real - 1.0 < 1000.0 * link.min <= r.minSendable as real
    ensures link.max < 0.0 ==> r.maxSendable <= 0 && r.maxSendable as real - 1.0 < 1000.0 * link.max <= r.maxSendable as real
  {
    PayRequest(link.id, TruncToInt(link.min * 1000.0), TruncToInt(link.max * 1000.0), None)
  }

  /** The pay request by address, as written: an unknown username is
      answered on the error channel; no counter is touched. */
  method LnurlResponseAsWritten(store: Store, username: string) returns (h: Handled)
    ensures h.store == store
    ensures h.response == LnurlError(AddressNotFound) <==> !AddressTaken(store, username)
    ensures h.response.PayRequest? <==> AddressTaken(store, username)
    ensures h.response.PayRequest? ==>
      exists id :: id in store && store[id].username == Some(username)
                   && h.response == AddressPayloadAsWritten(store[id])
  {
    var found := GetAddressData(store, username);
    if found.None? {
      h := Handled(store, LnurlError(AddressNotFound));
    } else {
      h := Handled(store, AddressPayloadAsWritten(found.value));
    }
  }

  /** The pay request by address, corrected: the same payload as the
      by-id path, at the link's rate. */
  method LnurlResponse(store: Store, username: string, rateOf: string -> real) returns (h: Handled)
    ensures h.store == store
    ensures h.response == LnurlError(AddressNotFound) <==> !AddressTaken(store, username)
    ensures h.response.PayRequest? <==> AddressTaken(store, username)
    ensures h.response.PayRequest? ==>
      exists id :: id in store && store[id].username == Some(username)
                   && h.response == PayRequestPayload(store[id], Rate(store[id], rateOf))
  {
    var found := GetAddressData(store, username);
    if found.None? {
      h := Handled(store, LnurlError(AddressNotFound));
    } else {
      h := Handled(store, PayRequestPayload(found.value, Rate(found.value, rateOf)));
    }
  }

  // ---------------------------------------------------------------------
  // Properties of the handlers

  /** Without a currency the callback requests an invoice exactly when
      min*1000 <= amount <= max*1000 and the comment fits; otherwise no
      invoice is requested. */
  lemma CallbackWithoutCurrency(store: Store, linkId: LinkId, amount: Option<int>,
                                comment: Option<string>, rateOf: string -> real)
    requires linkId in store && !HasCurrency(store[linkId])
    ensures var link := store[linkId]; var a := amount.GetOr(0) as real;
      ApiLnurlCallback(store, linkId, amount, comment, rateOf).response.InvoiceRequested?
      <==> link.min * 1000.0 <= a <= link.max * 1000.0 && |comment.GetOr("")| <= link.commentChars
  {
  }

  /** For a non-negative rate and bounds, the widened window of a fiat link
      contains the exact conversion [rate*1000*min, rate*1000*max]. */
  lemma CurrencyWindowContainsExact(link: PayLink, rate: real)
    requires HasCurrency(link) && rate >= 0.0 && link.min >= 0.0 && link.max >= 0.0
    ensures CallbackWindow(link, rate).low <= rate * 1000.0 * link.min
    ensures rate * 1000.0 * link.max <= CallbackWindow(link, rate).high
  {
  }

  /** A missing amount is validated as 0: same store, same verdict, and the
      same number of satoshis when an invoice is requested. */
  lemma MissingAmountIsZero(store: Store, linkId: LinkId, comment: Option<string>, rateOf: string -> real)
    ensures var h1 := ApiLnurlCallback(store, linkId, None, comment, rateOf);
            var h2 := ApiLnurlCallback(store, linkId, Some(0), comment, rateOf);
      && h1.store == h2.store
      && (h1.response.InvoiceRequested? <==> h2.response.InvoiceRequested?)
      && (!h1.response.InvoiceRequested? ==> h1.response == h2.response)
      && (h1.response.InvoiceRequested? ==> h1.response.invoice.sats == 0 == h2.response.invoice.sats)
  {
  }

  /** A missing comment is validated as the empty comment whenever the
      allowed length is not negative. */
  lemma MissingCommentIsEmpty(store: Store, linkId: LinkId, amount: Option<int>, rateOf: string -> real)
    requires linkId in store ==> store[linkId].commentChars >= 0
    ensures var h1 := ApiLnurlCallback(store, linkId, amount, None, rateOf);
            var h2 := ApiLnurlCallback(store, linkId, amount, Some(""), rateOf);
      && h1.store == h2.store
      && (h1.response.InvoiceRequested? <==> h2.response.InvoiceRequested?)
      && (!h1.response.InvoiceRequested? ==> h1.response == h2.response)
      && (h1.response.InvoiceRequested? ==> h1.response.invoice.sats == h2.response.invoice.sats)
  {
  }

  /** Without a currency and with whole-satoshi bounds, the advertised
      bounds are bound*1000 and coincide with the callback's window. */
  lemma PayRequestWithoutCurrency(link: PayLink, rateOf: string -> real)
    requires !HasCurrency(link)
    requires link.min == link.min.Floor as real && link.max == link.max.Floor as real
    ensures var p := PayRequestPayload(link, Rate(link, rateOf));
            var w := CallbackWindow(link, Rate(link, rateOf));
      && p.minSendable == link.min.Floor * 1000 && p.maxSendable == link.max.Floor * 1000
      && p.minSendable as real == w.low && p.maxSendable as real == w.high
  {
  }

  /** With a currency, once min*rate reaches 100 sats and max*rate reaches
      50 sats, every amount the pay request advertises passes the
      callback's amount checks at the same rate. */
  lemma PayRequestWithinCallbackWindow(link: PayLink, rate: real)
    requires HasCurrency(link)
    requires link.min * rate >= 100.0 && link.max * rate >= 50.0
    ensures var p := PayRequestPayload(link, rate); var w := CallbackWindow(link, rate);
      w.low <= p.minSendable as real && p.maxSendable as real <= w.high
  {
    var x, y := link.min * rate, link.max * rate;
    var p, w := PayRequestPayload(link, rate), CallbackWindow(link, rate);
    assert p.minSendable as real >= 1000.0 * x - 500.0;
    assert p.maxSendable as real <= 1000.0 * y + 500.0;
    assert w.low == 995.0 * x;
    assert w.high == 1010.0 * y;
  }

  /** The address path as written advertises fiat bounds as if they were
      satoshis: for a USD link with bounds 1..5 at 50000 sat/USD it offers
      1000..5000 msat, and the callback refuses even the advertised maximum. */
  lemma AddressPayloadRejectedByCallback(link: PayLink, rateOf: string -> real)
    requires link.currency == Some("USD") && link.min == 1.0 && link.max == 5.0
    requires rateOf("USD") == 50000.0
    ensures var p := AddressPayloadAsWritten(link);
            var h := ApiLnurlCallback(map[link.id := link], link.id, Some(p.maxSendable), None, rateOf);
      && p.minSendable == 1000 && p.maxSendable == 5000
      && h.response == LnurlError(AmountTooSmall(5000, 49750000.0))
  {
  }

  /** The handlers only move counters, so they keep the store valid. */
  lemma HandlersPreserveValid(store: Store, linkId: LinkId, amount: Option<int>,
                              comment: Option<string>, rateOf: string -> real)
    requires Valid(store)
    ensures Valid(ApiLnurlCallback(store, linkId, amount, comment, rateOf).store)
    ensures Valid(ApiLnurlResponse(store, linkId, rateOf).store)
  {
  }
}

=== FILE: models.dfy ===
/** The records of the pay-link extension: a stored pay link, the request
    that creates one, and the typed partial update that changes one. */
module Models {
  import opened Options

  type LinkId = string
  type WalletId = string

  /** One row of the pay-link table. `min`/`max` are in satoshis when no
      currency is set, otherwise in units of `currency`. */
  datatype PayLink = PayLink(
    id: LinkId,
    wallet: WalletId,
    description: string,
    min: real,
    max: real,
    servedMeta: int,
    servedPr: int,
    webhookUrl: Option<string>,
    webhookHeaders: Option<string>,
    webhookBody: Option<string>,
    successText: Option<string>,
    successUrl: Option<string>,
    commentChars: int,
    currency: Option<string>,
    fiatBaseMultiplier: int,
    username: Option<string>,
    zaps: Option<bool>)

  /** The fields a caller supplies when creating a pay link. */
  datatype CreatePayLinkData = CreatePayLinkData(
    description: string,
    min: real,
    max: real,
    webhookUrl: Option<string>,
    webhookHeaders: Option<string>,
    webhookBody: Option<string>,
    successText: Option<string>,
    successUrl: Option<string>,
    commentChars: int,
    currency: Option<string>,
    fiatBaseMultiplier: int,
    username: Option<string>,
    zaps: Option<bool>)

  /** Python truthiness of an optional string: present and non-empty. */
  predicate Present(s: Option<string>) {
    s.Some? && |s.value| > 0
  }

  /** A link has a currency when its currency code is truthy. */
  predicate HasCurrency(link: PayLink) {
    Present(link.currency)
  }

  /** One field of a partial update: left alone, or set to a new value. */
  datatype Field<T> = Keep | Assign(value: T) {
    /** The field's value after the update, given its value before. */
    function Apply(current: T): T {
      if Assign? then value else current
    }
  }

  /** The keyword arguments of an update, one optional assignment per
      mutable column. The id and the two counters are not among them. */
  datatype PayLinkUpdate = PayLinkUpdate(
    wallet: Field<WalletId>,
    description: Field<string>,
    min: Field<real>,
    max: Field<real>,
    webhookUrl: Field<Option<string>>,
    webhookHeaders: Field<Option<string>>,
    webhookBody: Field<Option<string>>,
    successText: Field<Option<string>>,
    successUrl: Field<Option<string>>,
    commentChars: Field<int>,
    currency: Field<Option<string>>,
    fiatBaseMultiplier: Field<int>,
    username: Field<Option<string>>,
    zaps: Field<Option<bool>>)
  {
    /** True when no column is named, so the SET list would be empty. */
    predicate NamesNothing() {
      && wallet.Keep? && description.Keep? && min.Keep? && max.Keep?
      && webhookUrl.Keep? && webhookHeaders.Keep? && webhookBody.Keep?
      && successText.Keep? && successUrl.Keep? && commentChars.Keep?
      && currency.Keep? && fiatBaseMultiplier.Keep? && username.Keep? && zaps.Keep?
    }
  }

  /** An update that assigns only the username. */
  function UsernameUpdate(username: Option<string>): PayLinkUpdate {
    PayLinkUpdate(Keep, Keep, Keep, Keep, Keep, Keep, Keep, Keep, Keep, Keep, Keep, Keep,
                  Assign(username), Keep)
  }

  /** `after` is what a field becomes under `f` when it was `before`. */
  predicate Follows<T(==)>(f: Field<T>, before: T, after: T) {
    (f.Keep? ==> after == before) && (f.Assign? ==> after == f.value)
  }

  /** `after` is `before` with exactly the named columns replaced. */
  predicate UpdatedFrom(before: PayLink, u: PayLinkUpdate, after: PayLink) {
    && after.id == before.id
    && after.servedMeta == before.servedMeta
    && after.servedPr == before.servedPr
    && Follows(u.wallet, before.wallet, after.wallet)
    && Follows(u.description, before.description, after.description)
    && Follows(u.min, before.min, after.min)
    && Follows(u.max, before.max, after.max)
    && Follows(u.webhookUrl, before.webhookUrl, after.webhookUrl)
    && Follows(u.webhookHeaders, before.webhookHeaders, after.webhookHeaders)
    && Follows(u.webhookBody, before.webhookBody, after.webhookBody)
    && Follows(u.successText, before.successText, after.successText)
    && Follows(u.successUrl, before.successUrl, after.successUrl)
    && Follows(u.commentChars, before.commentChars, after.commentChars)
    && Follows(u.currency, before.currency, after.currency)
    && Follows(u.fiatBaseMultiplier, before.fiatBaseMultiplier, after.fiatBaseMultiplier)
    && Follows(u.username, before.username, after.username)
    && Follows(u.zaps, before.zaps, after.zaps)
  }

  /** The row an update writes: the named columns replaced, the rest kept. */
  function ApplyUpdate(link: PayLink, u: PayLinkUpdate): (r: PayLink)
    ensures UpdatedFrom(link, u, r)
  {
    link.(
      wallet := u.wallet.Apply(link.wallet),
      description := u.description.Apply(link.description),
      min := u.min.Apply(link.min),
      max := u.max.Apply(link.max),
      webhookUrl := u.webhookUrl.Apply(link.webhookUrl),
      webhookHeaders := u.webhookHeaders.Apply(link.webhookHeaders),
      webhookBody := u.webhookBody.Apply(link.webhookBody),
      successText := u.successText.Apply(link.successText),
      successUrl := u.successUrl.Apply(link.successUrl),
      commentChars := u.commentChars.Apply(link.commentChars),
      currency := u.currency.Apply(link.currency),
      fiatBaseMultiplier := u.fiatBaseMultiplier.Apply(link.fiatBaseMultiplier),
      username := u.username.Apply(link.username),
      zaps := u.zaps.Apply(link.zaps))
  }

  /** `link` is the row inserted for `data` under `id` in `wallet`: every
      column copied from the request and both counters at zero. */
  predicate BuiltFrom(link: PayLink, id: LinkId, wallet: WalletId, data: CreatePayLinkData) {
    && link.id == id
    && link.wallet == wallet
    && link.servedMeta == 0
    && link.servedPr == 0
    && link.description == data.description
    && link.min == data.min
    && link.max == data.max
    && link.webhookUrl == data.webhookUrl
    && link.webhookHeaders == data.webhookHeaders
    && link.webhookBody == data.webhookBody
    && link.successText == data.successText
    && link.successUrl == data.successUrl
    && link.commentChars == data.commentChars
    && link.currency == data.currency
    && link.fiatBaseMultiplier == data.fiatBaseMultiplier
    && link.username == data.username
    && link.zaps == data.zaps
  }

  /** Counter deltas named in an increment; `None` means not named. */
  datatype CounterDeltas = CounterDeltas(servedMeta: Option<int>, servedPr: Option<int>)

  /** The deltas of two increments added counter by counter; a counter is
      named when either increment names it. */
  function SumDeltas(a: CounterDeltas, b: CounterDeltas): CounterDeltas {
    CounterDeltas(
      if a.servedMeta.Some? || b.servedMeta.Some? then Some(a.servedMeta.GetOr(0) + b.servedMeta.GetOr(0)) else None,
      if a.servedPr.Some? || b.servedPr.Some? then Some(a.servedPr.GetOr(0) + b.servedPr.GetOr(0)) else None)
  }

  /** The row an increment writes: each named counter plus its delta. */
  function AddDeltas(link: PayLink, d: CounterDeltas): (r: PayLink)
    ensures r.servedMeta == link.servedMeta + d.servedMeta.GetOr(0)
    ensures r.servedPr == link.servedPr + d.servedPr.GetOr(0)
    ensures r.(servedMeta := link.servedMeta, servedPr := link.servedPr) == link
  {
    link.(servedMeta := link.servedMeta + d.servedMeta.GetOr(0),
          servedPr := link.servedPr + d.servedPr.GetOr(0))
  }
}

=== FILE: numerics.dfy ===
/** Python's float-to-int conversions, taken over exact real arithmetic. */
module Numerics {

  /** Python's `round(x)` for one argument: the nearest integer, ties going
      to the even neighbour. */
  function RoundHalfEven(x: real): (r: int)
    ensures -0.5 <= x - r as real <= 0.5
    ensures (x - r as real == 0.5 || x - r as real == -0.5) ==> r % 2 == 0
  {
    var f := x.Floor;
    var frac := x - f as real;
    if frac < 0.5 then f
    else if frac > 0.5 then f + 1
    else if f % 2 == 0 then f
    else f + 1
  }

  /** Python's `int(x)` on a float: truncation toward zero. */
  function TruncToInt(x: real): (r: int)
    ensures 0.0 <= x ==> 0 <= r && r as real <= x < r as real + 1.0
    ensures x < 0.0 ==> r <= 0 && r as real - 1.0 < x <= r as real
  {
    if x >= 0.0 then x.Floor else -((-x).Floor)
  }

  /** Truncating `n / 1000` is integer division rounded toward zero. */
  lemma TruncThousandth(n: int)
    ensures TruncToInt(n as real / 1000.0) == if n >= 0 then n / 1000 else -((-n) / 1000)
  {
  }
}

=== FILE: options.dfy ===
/** Optional values and success/failure results, used where the Python code
    returns `None` or raises. */
module Options {

  datatype Option<T> = None | Some(value: T) {
    /** The wrapped value, or `default` when absent (Python's `x or default`
        for a value that is either missing or present). */
    function GetOr(default: T): T {
      if Some? then value else default
    }
  }

  /** The outcome of an operation that may raise: `Failure` stands for the
      exception, `Success` for a normal return. */
  datatype Result<T, E> = Success(value: T) | Failure(error: E)
}
